=== FILE: README.md ===
# Code extraction and execution in the scientific programming workshop

The workshop's web app sends a prompt about a car-listings DataFrame to a chat
model. It pulls the first fenced code block out of the reply and, from step 03
on, runs that code with `exec`. It captures what the code prints, saves any
open matplotlib figure as the page's graphic, and turns a fixed set of Python
exceptions into an error message. This project models that core:

- `extract_python_code`: the regular expression ```` ```(?:python)?(.*?)``` ````
  under `re.DOTALL`, `re.findall`, and `str.strip()`. Module `CodeExtract`
  uses `PyStr` for `str.strip()`.
- `execute_user_code` and its `ExecResult`. Module `CodeExec` uses
  `Exceptions` for the class hierarchy and the `except` tuple.
- The POST paths of three `index` views. Module `Handlers` covers step 02,
  the inline step 03, and the refactored step 03 built on the two functions
  above. It also covers `get_openai_client`'s missing-key `ValueError`.

The snippet, matplotlib and the process are parameters:

- An `Interpreter` says what `exec` did with the code and namespace: what it
  printed into the capture buffer, whether it raised, how many figures were
  left open, which files it wrote, what it left in `sys.stdout` if it
  rebound it, and whether it closed the capture buffer.
- A `Plotting` handle says whether `get_fignums` exists, how `savefig` ends
  for each path, and how `close` ends.
- A `Process` holds the object `sys.stdout` names, the number of open figures
  and the paths of all files written: saved figures and the code's own files.

The chat call is a `Chat` value: a reply's content or a raised exception.
Exceptions are `PyException(cls, text)`. `cls` is a chain of single bases up
to `BaseException`, and `text` stands for `str(ex)`.

Some consequences of the code as written:

- `plt.close()` without an argument closes only the current figure, not all
  of them.
- No figures are cleared before `exec`. So a figure left open by an earlier
  call is saved and reported by a later call whose code drew nothing
  (`CodeExec.LeftoverFigureIsShown`, `CodeExec.FiguresLeakAcrossCalls`).
- A handled fault does not empty `ExecResult.stdout`. It keeps what the code
  printed before failing, next to the error message. The refactored step-03
  view shows `error or stdout`, so only the message reaches the page. The
  inline view builds no `ExecResult` and puts the message in place of the
  output itself.
- Code that closes `sys.stdout` while that name still refers to the capture
  buffer (it has not rebound it) closes the buffer, and `getvalue()`
  then raises `ValueError: I/O operation on closed file.` The executor reads
  the buffer after its `finally`, so the error escapes even when a fault was
  handled, and the refactored view shows its text through `except ValueError`.
  The inline view reads it in the `else` clause, so the error escapes the
  request, and a handled fault hides it (`Handlers.ClosedBufferDiverges`).
- The inline view saves to the relative `./static/graphic.png`, the
  refactored one to an absolute path. They can end differently when the code
  changed the working directory (`Handlers.SavePathDiverges`).
- Exceptions outside the `except` tuple propagate, for example
  `OverflowError`, `AssertionError`, `OSError` and `KeyboardInterrupt`.
- The inline step-03 view calls `plt.get_fignums()` without a guard. The
  refactored executor checks for it with `getattr`.

## Model

| member | source | states |
|---|---|---|
| PyStr.Strip | src/scientific_programming_workshop/code_exec.py:18-19 | `str.strip()` keeps the slice between the first and last non-whitespace characters; everything dropped is whitespace under Python's `str.isspace`; the result has no whitespace at either end |
| PyStr.StripFixesStripped | src/scientific_programming_workshop/code_exec.py:18-19 | a string with no whitespace at either end is returned unchanged |
| PyStr.StripIdempotent | src/scientific_programming_workshop/code_exec.py:18-19 | stripping twice equals stripping once |
| PyStr.StripOfSlice | src/scientific_programming_workshop/code_exec.py:18 | the strip of a slice of a text is again a contiguous slice of that text |
| CodeExtract.FindFence | src/scientific_programming_workshop/code_exec.py:16 | the scan for a fence returns the nearest index at or after the start where three backticks begin, or none when no fence follows |
| CodeExtract.NextBlock | src/scientific_programming_workshop/code_exec.py:16 | a block found by the scan lies inside the text, starts at or after the search start, and no fence begins between its body and its closing fence |
| CodeExtract.UnclosedOpenerEndsSearch | src/scientific_programming_workshop/code_exec.py:16 | if the first opening fence has no closing fence after it, the pattern matches nowhere from there on |
| CodeExtract.ClosedOpenerIsFirst | src/scientific_programming_workshop/code_exec.py:16 | a closed first opening fence is the leftmost match; the optional tag is taken when present and the body ends at the nearest closing fence |
| CodeExtract.NextBlockIsFirstMatch | src/scientific_programming_workshop/code_exec.py:16 | the scan agrees with the regex semantics (leftmost start, greedy optional tag, lazy body): it finds a block exactly when the pattern matches, and the block is the first match |
| CodeExtract.FirstMatchUnique | src/scientific_programming_workshop/code_exec.py:16 | the first match is unique: start, tag choice and end are determined |
| CodeExtract.FindAll | src/scientific_programming_workshop/code_exec.py:16 | `re.findall` returns a non-empty list exactly when the pattern matches somewhere in the text, and no item contains a fence |
| CodeExtract.FindAllFrom | src/scientific_programming_workshop/code_exec.py:16 | no captured body of `re.findall` contains a fence |
| CodeExtract.ExtractPythonCode | src/scientific_programming_workshop/code_exec.py:13-19 | the extracted code never starts or ends with whitespace, and a reply the pattern does not match is returned whole, stripped |
| CodeExtract.ExtractReturnsFirstMatch | src/scientific_programming_workshop/code_exec.py:13-19 | with no match the result is the whole text stripped; otherwise a first match exists and the result is the stripped body of that match |
| CodeExtract.FindAllHead | src/scientific_programming_workshop/code_exec.py:16-17 | `re.findall` finds a block exactly when the scan from the start does, and its first item is that block's body |
| CodeExtract.MatchInSlice | src/scientific_programming_workshop/code_exec.py:16 | a match in a slice of a text is a match in the whole text, shifted by the slice's start |
| CodeExtract.NoFenceNoMatch | src/scientific_programming_workshop/code_exec.py:16 | a text with no fence never matches the pattern |
| CodeExtract.ExtractIsTrimmedSlice | src/scientific_programming_workshop/code_exec.py:13-19 | the extracted code is a contiguous part of the reply with no whitespace at either end |
| CodeExtract.SliceKeepsNoFence | src/scientific_programming_workshop/code_exec.py:16 | a slice of a fence-free text is fence-free |
| CodeExtract.ExtractIdempotent | src/scientific_programming_workshop/code_exec.py:13-19 | extracting from already extracted code returns it unchanged |
| CodeExtract.FindFenceInPrefix | src/scientific_programming_workshop/code_exec.py:16 | text appended after a fence does not move the nearest fence |
| CodeExtract.NextBlockInPrefix | src/scientific_programming_workshop/code_exec.py:16 | once a text holds a complete block, appended text changes neither the block nor its tag choice |
| CodeExtract.ExtractIgnoresLaterText | src/scientific_programming_workshop/code_exec.py:16-18 | once the reply contains a match, anything appended to it leaves the extracted code unchanged: only the first block counts |
| CodeExtract.ExtractFencedBody | src/scientific_programming_workshop/code_exec.py:13-19 | for backtick-free prose and body, the result is the stripped body, with a leading `python` tag removed |
| CodeExtract.ExtractWithoutBackticks | src/scientific_programming_workshop/code_exec.py:19 | a reply without backticks is returned whole, stripped |
| CodeExtractExamples.ExtractExampleNoFence | src/scientific_programming_workshop/code_exec.py:19 | worked example: a fence-free reply is returned as is |
| CodeExtractExamples.StripNewlineWrapped | src/scientific_programming_workshop/code_exec.py:18 | stripping a non-empty line with no surrounding whitespace, wrapped in newlines, gives back the line |
| CodeExtractExamples.ExtractExampleTagged | src/scientific_programming_workshop/code_exec.py:16-18 | worked example: a tagged block after prose yields its body without the tag and the newlines |
| CodeExtractExamples.ExtractExampleTwoBlocks | src/scientific_programming_workshop/code_exec.py:16-18 | worked example: of two blocks only the first is returned |
| Exceptions.IsSubclass | src/scientific_programming_workshop/code_exec.py:61-72 | `issubclass(c, d)` holds exactly when `d` appears in `c.__mro__` |
| Exceptions.Caught | src/scientific_programming_workshop/code_exec.py:61-72 | the executor handles a class exactly when some class of its `__mro__` is listed in the `except` tuple |
| Exceptions.IsSubclassTransitive | src/scientific_programming_workshop/code_exec.py:61-72 | subclassing is transitive |
| Exceptions.CaughtClosedUnderSubclass | src/scientific_programming_workshop/code_exec.py:61-72 | a subclass of a handled class is handled too |
| Exceptions.CaughtByIffAlongBases | src/scientific_programming_workshop/code_exec.py:61-72 | matching an `except` tuple with `issubclass` against each listed class agrees with walking the class's bases looking for a listed one |
| Exceptions.CaughtSubclassExamples | src/scientific_programming_workshop/code_exec.py:61-72 | `ModuleNotFoundError`, `RecursionError`, `IndentationError`, `TabError`, `UnboundLocalError`, `UnicodeDecodeError` and `NotImplementedError` are handled through their listed bases |
| Exceptions.SnippetSubclassCaught | src/scientific_programming_workshop/code_exec.py:61-72 | an exception class the executed code defines on a handled base is handled too |
| Exceptions.UncaughtStep | src/scientific_programming_workshop/code_exec.py:61-72 | an unlisted class whose base is unhandled is unhandled |
| Exceptions.RootsUncaught | src/scientific_programming_workshop/code_exec.py:61-72 | neither `BaseException` nor `Exception` is handled |
| Exceptions.OverflowAndAssertionUncaught | src/scientific_programming_workshop/code_exec.py:61-72 | `OverflowError` and `AssertionError` escape the executor |
| Exceptions.OSErrorAndInterruptUncaught | src/scientific_programming_workshop/code_exec.py:61-72 | `OSError` and `KeyboardInterrupt` escape the executor |
| Exceptions.FileNotFoundErrorUncaught | src/scientific_programming_workshop/code_exec.py:61-72 | a `FileNotFoundError` escapes the executor and is no `OpenAIError` |
| Exceptions.OpenAIErrorUncaught | src/scientific_programming_workshop/code_exec.py:61-72 | an `OpenAIError` raised by the snippet escapes the executor |
| Exceptions.AncestorsAreOrdered | src/scientific_programming_workshop/apps/step_03.py:67-70 | with single bases, two ancestors of one class are related by subclassing |
| Exceptions.ValueErrorsAreNotOpenAIErrors | src/scientific_programming_workshop/apps/step_03.py:67-70 | no exception is both a `ValueError` and an `OpenAIError`, so the order of the two handlers never matters |
| CodeExec.FreshBuffer | src/scientific_programming_workshop/code_exec.py:42-44 | the capture buffer is a new object, never the one `sys.stdout` names on entry, so only the restore gives the caller its stream back |
| CodeExec.ExecGlobals | src/scientific_programming_workshop/code_exec.py:50-52 | the namespace holds `data`, `pd`, `plt` and the extra names; extra entries override the defaults; other defaults are kept |
| CodeExec.SaveAndClose | src/scientific_programming_workshop/code_exec.py:57-59 | the graphic is shown exactly when `savefig` and `close` both return; a successful save records the path; a clean close removes one figure |
| CodeExec.TryBlock | src/scientific_programming_workshop/code_exec.py:54-59 | after `exec` returns or raises, the `try` block raises the first fault, reports a graphic exactly when the current figure was saved and closed, keeps the stream, removes one figure after a shown graphic and adds the save path to the files only once `savefig` returned |
| CodeExec.ExecuteUserCode | src/scientific_programming_workshop/code_exec.py:29-80 | `sys.stdout` is redirected to a fresh buffer and restored on every exit, even when the code rebound it or an exception escapes; an exception escapes exactly when the fault is outside the tuple or the code closed the buffer, and it is that fault, else the closed-file `ValueError`; `stdout` is the buffer's text; `error` is empty exactly when there was no fault and is otherwise the prefix and the message; the graphic is shown exactly when the code completed, a path was given, `get_fignums` exists, figures were open and save (to that path) and close returned; a shown graphic has no error and is saved at the given path; the files afterwards are the earlier ones, the code's own, and the graphic path once `savefig` returned; one figure fewer is open after a shown graphic |
| CodeExec.LeftoverFigureIsShown | src/scientific_programming_workshop/code_exec.py:54-59 | with `get_fignums` present, `savefig` and `close` returning, a non-empty save path and code that completes, leaves the figures as they were and keeps the capture buffer open, a figure left open before the call is saved and reported even though the code drew nothing, and one figure fewer stays open |
| CodeExec.FiguresLeakAcrossCalls | src/scientific_programming_workshop/code_exec.py:54-59 | with `get_fignums` present, `savefig` and `close` returning and a non-empty save path, two figures open and code that prints and draws nothing, completes and keeps the buffer open, two successive calls both report a graphic with no error and leave no figure open |
| Handlers.GraphicPath | src/scientific_programming_workshop/paths.py:18-21 | the graphic path is never empty, so the executor's path guard always passes in step 03 |
| Handlers.ExceptOpenAIError | app_step_02.py:86-87 | an `OpenAIError` becomes the API error message; any other exception propagates unchanged |
| Handlers.Step02 | app_step_02.py:36-87 | GET shows an empty page; a reply shows the content and the code extracted from it; an `OpenAIError` shows the prefixed message and no code; other exceptions propagate |
| Handlers.InlineExecBlock | app_step_03.py:101-139 | `sys.stdout` is redirected to a fresh buffer and restored by the `finally` clause, even when the code rebound it; an exception escapes exactly when the fault is outside the tuple, or when there was no fault and the code closed the buffer (the `else` clause's `getvalue()` raising the closed-file `ValueError`); the result is the prefixed message for a handled fault and the printed text otherwise; the graphic is shown exactly when the code completed, `get_fignums` exists, figures were open and save and close returned; the files afterwards are the earlier ones, the code's own, and `./static/graphic.png` once `savefig` returned |
| Handlers.InlineStep03 | app_step_03.py:49-142 | GET shows an empty page; chat errors follow the `OpenAIError` handler; a reply shows content, extracted code, error-or-output and the graphic flag when the fault was handled or there was none and the buffer stayed open; with no fault and a closed buffer the closed-file `ValueError` propagates; an unhandled fault from the code follows the outer `OpenAIError` handler and keeps the code |
| Handlers.Step03 | src/scientific_programming_workshop/apps/step_03.py:24-70 | GET shows an empty page; without an API key the page shows the missing-key message; a `ValueError` shows its text; an `OpenAIError` shows the prefixed message; other chat exceptions propagate; a reply shows content, extracted code, `error or stdout` and the graphic flag when the buffer stayed open; with a closed buffer and no unhandled fault the page shows the closed-file message with the code and no result or graphic; an unhandled fault from the code follows the `OpenAIError` handler and keeps the code |
| Handlers.ExceptClientErrors | src/scientific_programming_workshop/apps/step_03.py:67-70 | a `ValueError` shows its text, an `OpenAIError` shows the prefixed message whichever clause comes first, and anything else propagates unchanged |
| Handlers.Step03RefinesInline | src/scientific_programming_workshop/apps/step_03.py:47-70 | with `get_fignums` present, an API key configured, no `ValueError` from the chat call, the capture buffer left open and both graphic paths saving alike, the refactored view produces the same page or exception as the inline view, with the same figures open afterwards |
| Handlers.ReplyPagesAgree | app_step_03.py:89-139 | for a reply whose code leaves the buffer open, with both graphic paths saving alike, both step-03 views produce the same page or exception, with the same figures open afterwards |
| Handlers.ExecutorsAgree | src/scientific_programming_workshop/code_exec.py:42-80 | under the same conditions, `execute_user_code` with `str(GRAPHIC_PATH)` and the inline block raise the same exception, or the inline result is `error or stdout` with the same graphic flag, and leave the same figures open |
| Handlers.ClosedBufferDiverges | app_step_03.py:134-141 | with `get_fignums` present, code that completes, leaves no figure open (so nothing is saved and no fault is handled) and closes the capture buffer gets a page with the closed-file message from the refactored view and an escaping `ValueError` from the inline view |
| Handlers.SavePathDiverges | app_step_03.py:115-118 | with `get_fignums` present, `close` returning, and code that completes, leaves a figure open and keeps the capture buffer open: when only the save to the relative path fails with `FileNotFoundError`, the inline request fails with it while the refactored view shows the output and the graphic |
| Handlers.OnlyRefactorCatchesChatValueError | src/scientific_programming_workshop/apps/step_03.py:67-68 | a `ValueError` from the chat call is shown by the refactored view but escapes the inline view |
| Handlers.OnlyInlineNeedsGetFignums | app_step_03.py:114-120 | without `get_fignums`, after code that completed and left the buffer open, the inline view reports an `AttributeError`; the refactored view skips saving and shows the output |
| Handlers.Step02ShowsFirstFence | app_step_02.py:74-84 | step 02 shows the first fenced body, with the tag removed and stripped, whatever follows it |
| Handlers.Step02IgnoresLaterText | app_step_02.py:74-84 | text appended after a complete block does not change the code step 02 shows |
| Handlers.Step03ShowsStep02Code | app_step_03.py:89-99 | both step-03 views show the same code as step 02 for the same reply |

## Left out

- Flask routing, form reading, prompt construction and template rendering.
  The template variables are modelled except `prompt`, which only echoes the
  form field.
- Loading the CSV file and `describe_dataframe`. The DataFrame is an opaque
  `Value`.
- Building the OpenAI client. `get_openai_api_key` and the environment are
  reduced to a boolean `keyConfigured`. The reply is its content, and a
  `None` content is not modelled.
- What the snippet does. `exec` is an abstract `Interpreter`, and `exec`
  adding `__builtins__` to the namespace is not modelled. Files the snippet
  writes are recorded by path only; their contents, and files it deletes,
  are not modelled.
- matplotlib. `get_fignums` is taken as present or absent and as never
  raising. `savefig` (per path) and `close` are steps that return or raise. The saved
  file's contents are not modelled.
- Removing a stale `static/graphic.png` at the start of each request. File
  deletion is I/O and is not modelled.
- `paths.py` resolving the project root. `GraphicPath` is the root followed by
  `/static/graphic.png`.
- Concurrent requests sharing `sys.stdout` and the figure registry. The model
  is sequential.
- Handlers.Step03RefinesInline: promises equal pages only when the code
  leaves the capture buffer open and both graphic paths save alike, because
  the views differ otherwise; `Handlers.ClosedBufferDiverges` and
  `Handlers.SavePathDiverges` state what happens instead.
- Handlers.ReplyPagesAgree: the same two conditions, for the same reason.
- Multiple inheritance and class identity. Exception classes are single-base
  chains compared structurally. `str(ex)` is the exception's given text.

=== FILE: code_exec.dfy ===
/**
 * `execute_user_code` and its `ExecResult`. The executed snippet, matplotlib
 * and the process-wide `sys.stdout` are outside the model's reach; they enter
 * as an `Interpreter` (what `exec` did with the code and namespace it was
 * given), a `Plotting` handle (which calls exist and how they end) and a
 * `Process` state (which object `sys.stdout` names, how many figures are
 * open, which files were written).
 */
module CodeExec {
  import opened Wrappers
  import opened Exceptions

  /** Values bound in the execution namespace, told apart only by identity. */
  datatype Value = DataFrame(id: nat) | PyModule(name: string)

  /** The globals dictionary handed to `exec`. */
  type Globals = map<string, Value>

  const Pandas := PyModule("pandas")
  const Pyplot := PyModule("matplotlib.pyplot")

  /** How `exec` ended. */
  datatype Outcome = Completed | Raised(ex: PyException)

  /**
   * What `exec` did: the text it wrote to the capture buffer before it
   * completed or raised, how it ended, how many figures were open afterwards,
   * the files it wrote itself, the object it left in `sys.stdout` when it
   * rebound that name, and whether it closed the capture buffer (through
   * `sys.stdout.close()`, say), after which `getvalue()` raises.
   */
  datatype Run = Run(
    printed: string, outcome: Outcome, figures: nat, written: set<string>,
    rebound: Option<nat>, closedBuffer: bool)

  /** `exec(code, globals)`, started with the given number of figures open. */
  type Interpreter = (string, Globals, nat) -> Run

  /** How one call into matplotlib ended. */
  datatype Step = Returns | Raises(ex: PyException)

  /**
   * The plotting handle: whether it has `get_fignums`, how `savefig` ends for
   * each path (a relative path depends on the working directory, which the
   * code may have changed), and how `close` ends.
   */
  datatype Plotting = Plotting(hasGetFignums: bool, savefig: string -> Step, close: Step)

  /**
   * Process-wide state: the object `sys.stdout` names, the number of open
   * figures, and the paths of the files written so far: saved figures and
   * files the executed code wrote itself.
   */
  datatype Process = Process(stdout: nat, figures: nat, saved: set<string>)

  /** A call's exit together with the process state it left behind. */
  datatype Call<T> = Call(exit: Exit<T>, after: Process)

  /** The frozen `ExecResult` dataclass. */
  datatype ExecResult = ExecResult(stdout: string, error: string, showGraphic: bool)

  /** Prefix of the message reported for a handled fault. */
  const ErrorPrefix := "Error executing code:\n"

  /** What `getvalue()` raises on a closed `io.StringIO`. */
  const ClosedFileError := PyException(ValueError, "I/O operation on closed file.")

  /** `io.StringIO()`: a new object, so never the one `sys.stdout` names on entry. */
  function FreshBuffer(before: Process): (buffer: nat)
    ensures buffer != before.stdout
  {
    before.stdout + 1
  }

  /**
   * The process as `exec` leaves it: `sys.stdout` is the capture buffer unless
   * the code rebound it, the code's figures are open and its files written.
   */
  function AfterExec(run: Run, before: Process): (st: Process)
  {
    Process(
      if run.rebound.Some? then run.rebound.value else FreshBuffer(before),
      run.figures,
      before.saved + run.written)
  }

  /** The namespace before any caller-supplied entries: `data`, `pd`, `plt`. */
  function DefaultGlobals(data: Value, plt: Value): (g: Globals)
  {
    map["data" := data, "pd" := Pandas, "plt" := plt]
  }

  /**
   * `exec_globals`: a fresh dictionary seeded with `data`, `pd` and `plt`, then
   * updated with `extra_globals` when that mapping is truthy (non-empty).
   */
  function ExecGlobals(data: Value, plt: Value, extra: Option<Globals>): (g: Globals)
    ensures g.Keys == {"data", "pd", "plt"} + (if extra.Some? then extra.value.Keys else {})
    ensures forall name :: extra.Some? && name in extra.value ==> name in g && g[name] == extra.value[name]
    ensures forall name :: name in DefaultGlobals(data, plt) && (extra.None? || name !in extra.value) ==>
      name in g && g[name] == DefaultGlobals(data, plt)[name]
  {
    var g := DefaultGlobals(data, plt);
    if extra.Some? && |extra.value| > 0 then g + extra.value else g
  }

  /** Python truthiness of `save_plot_path: str | None`. */
  predicate PathGiven(savePath: Option<string>)
  {
    savePath.Some? && savePath.value != ""
  }

  /** Where the `try` block stands when it ends: the exception it raised, `show_graphic`, the process state. */
  datatype TryEnd = TryEnd(raised: Option<PyException>, showGraphic: bool, process: Process)

  /**
   * `plt.savefig(path); plt.close(); show_graphic = True`, entered with at
   * least one figure open. `close()` with no argument closes the current
   * figure only.
   */
  function SaveAndClose(plot: Plotting, path: string, st: Process): (t: TryEnd)
    requires st.figures > 0
    ensures t.showGraphic <==> plot.savefig(path).Returns? && plot.close.Returns?
    ensures t.raised.None? <==> t.showGraphic
    ensures t.process.figures == if t.showGraphic then st.figures - 1 else st.figures
    ensures t.process.saved == if plot.savefig(path).Returns? then st.saved + {path} else st.saved
    ensures t.process.stdout == st.stdout
  {
    match plot.savefig(path)
    case Raises(e) => TryEnd(Some(e), false, st)
    case Returns =>
      var written := st.(saved := st.saved + {path});
      match plot.close
      case Raises(e) => TryEnd(Some(e), false, written)
      case Returns => TryEnd(None, true, written.(figures := written.figures - 1))
  }

  /** The guard in front of `savefig`: `exec` completed, a path was given, and figures are open. */
  predicate WillSave(run: Run, plot: Plotting, savePath: Option<string>)
  {
    run.outcome.Completed? && PathGiven(savePath) && plot.hasGetFignums && run.figures > 0
  }

  /** The exception the `try` block raises, if any: from `exec`, else `savefig`, else `close`. */
  function TryFault(run: Run, plot: Plotting, savePath: Option<string>): (fault: Option<PyException>)
  {
    if run.outcome.Raised? then Some(run.outcome.ex)
    else if WillSave(run, plot, savePath) && plot.savefig(savePath.value).Raises? then Some(plot.savefig(savePath.value).ex)
    else if WillSave(run, plot, savePath) && plot.close.Raises? then Some(plot.close.ex)
    else None
  }

  /** The graphic was saved and its figure closed. */
  predicate Saved(run: Run, plot: Plotting, savePath: Option<string>)
  {
    WillSave(run, plot, savePath) && plot.savefig(savePath.value).Returns? && plot.close.Returns?
  }

  /**
   * The `try` block once `exec` has returned or raised: the guarded save of
   * the current figure. It raises the first fault, shows the graphic exactly
   * when it was saved, and changes nothing but the figures and the files.
   */
  function TryBlock(run: Run, plot: Plotting, savePath: Option<string>, st: Process): (t: TryEnd)
    requires st.figures == run.figures
    ensures t.raised == TryFault(run, plot, savePath)
    ensures t.showGraphic <==> Saved(run, plot, savePath)
    ensures t.process.stdout == st.stdout
    ensures t.process.figures == if Saved(run, plot, savePath) then st.figures - 1 else st.figures
    ensures t.process.saved == st.saved
      + (if WillSave(run, plot, savePath) && plot.savefig(savePath.value).Returns? then {savePath.value} else {})
  {
    match run.outcome
    case Raised(e) => TryEnd(Some(e), false, st)
    case Completed =>
      if PathGiven(savePath) && plot.hasGetFignums && st.figures > 0 then
        SaveAndClose(plot, savePath.value, st)
      else
        TryEnd(None, false, st)
  }

  /**
   * `execute_user_code`: redirect `sys.stdout` to a fresh buffer, run the
   * code in a fresh namespace, save the current figure when asked to and one
   * is open, turn a handled fault into an error message, restore
   * `sys.stdout` in the `finally` clause, and read the buffer with
   * `getvalue()`, which raises when the code closed it.
   */
  function ExecuteUserCode(
    code: string, data: Value, plt: Value, plot: Plotting,
    savePath: Option<string>, extra: Option<Globals>,
    interp: Interpreter, before: Process): (c: Call<ExecResult>)
    // sys.stdout is restored on every exit, an escaping exception included.
    ensures c.after.stdout == before.stdout
    ensures var run := interp(code, ExecGlobals(data, plt, extra), before.figures);
      var fault := TryFault(run, plot, savePath);
      var escapes := fault.Some? && !Caught(fault.value.cls);
      && (c.exit.Raise? <==> escapes || run.closedBuffer)
      && (c.exit.Raise? ==> c.exit.ex == if escapes then fault.value else ClosedFileError)
    ensures var run := interp(code, ExecGlobals(data, plt, extra), before.figures);
      var fault := TryFault(run, plot, savePath);
      c.exit.Return? ==>
        var r := c.exit.value;
        && r.stdout == run.printed
        && (r.error == "" <==> fault.None?)
        && (fault.Some? ==> r.error == ErrorPrefix + fault.value.text)
        && (r.showGraphic <==> Saved(run, plot, savePath))
        && (r.showGraphic ==> r.error == "")
    // Only the current figure is closed; the rest stay open.
    ensures var run := interp(code, ExecGlobals(data, plt, extra), before.figures);
      c.after.figures == if Saved(run, plot, savePath) then run.figures - 1 else run.figures
    // A graphic is only reported once it was written to the requested path.
    ensures c.exit.Return? && c.exit.value.showGraphic ==> savePath.Some? && savePath.value in c.after.saved
    // The files on disk afterwards: those the code wrote, and the graphic
    // once `savefig` returned (even if `close` then failed).
    ensures var run := interp(code, ExecGlobals(data, plt, extra), before.figures);
      c.after.saved == before.saved + run.written
        + (if WillSave(run, plot, savePath) && plot.savefig(savePath.value).Returns? then {savePath.value} else {})
  {
    var run := interp(code, ExecGlobals(data, plt, extra), before.figures);
    var t := TryBlock(run, plot, savePath, AfterExec(run, before));
    var after := t.process.(stdout := before.stdout);
    if t.raised.Some? && !Caught(t.raised.value.cls) then
      Call(Raise(t.raised.value), after)
    else if run.closedBuffer then
      Call(Raise(ClosedFileError), after)
    else
      var error := if t.raised.Some? then ErrorPrefix + t.raised.value.text else "";
      Call(Return(ExecResult(run.printed, error, t.showGraphic)), after)
  }

  /** A plotting handle whose calls all exist and return normally. */
  const WorkingPlot := Plotting(true, _ => Returns, Returns)

  /**
   * No figures are cleared before `exec`: a figure left open by an earlier
   * call is saved and reported as this call's graphic even when the code
   * drew nothing.
   */
  lemma LeftoverFigureIsShown(
    code: string, data: Value, plt: Value, savePath: Option<string>,
    extra: Option<Globals>, interp: Interpreter, before: Process)
    requires PathGiven(savePath) && before.figures > 0
    requires var run := interp(code, ExecGlobals(data, plt, extra), before.figures);
      run.outcome.Completed? && run.figures == before.figures && !run.closedBuffer
    ensures var c := ExecuteUserCode(code, data, plt, WorkingPlot, savePath, extra, interp, before);
      c.exit.Return? && c.exit.value.showGraphic && c.exit.value.error == ""
      && c.after.figures == before.figures - 1
  {
  }

  /** An interpreter for code that prints nothing, draws nothing and completes. */
  function Quiet(code: string, g: Globals, figures: nat): (run: Run)
  {
    Run("", Completed, figures, {}, None, false)
  }

  /**
   * With two figures open, two consecutive calls running code that draws
   * nothing both report a graphic: `close()` removes one figure per call.
   */
  lemma FiguresLeakAcrossCalls(data: Value, path: string, before: Process)
    requires path != "" && before.figures == 2
    ensures var first := ExecuteUserCode("x = 1", data, Pyplot, WorkingPlot, Some(path), None, Quiet, before);
      var second := ExecuteUserCode("x = 1", data, Pyplot, WorkingPlot, Some(path), None, Quiet, first.after);
      && first.exit == Return(ExecResult("", "", true))
      && second.exit == Return(ExecResult("", "", true))
      && second.after.figures == 0
  {
    var first := ExecuteUserCode("x = 1", data, Pyplot, WorkingPlot, Some(path), None, Quiet, before);
    LeftoverFigureIsShown("x = 1", data, Pyplot, Some(path), None, Quiet, before);
    LeftoverFigureIsShown("x = 1", data, Pyplot, Some(path), None, Quiet, first.after);
  }
}

=== FILE: code_extract.dfy ===
/**
 * `extract_python_code`: the first fenced block of a model reply, found with
 * the pattern "```(?:python)?(.*?)```" under DOTALL, stripped; the whole reply
 * stripped when no block exists. The inline copies in the step-02 and step-03
 * applications are the same expression and share this definition.
 *
 * Two descriptions of the search are given. `NextBlock` and `FindAll` walk the
 * text the way the regular-expression engine does; `MatchAt` and
 * `IsFirstMatchFrom` say declaratively which match the engine reports
 * (leftmost opening fence, the optional tag taken when it can be, the
 * shortest body). `NextBlockIsFirstMatch` connects the two.
 */
module CodeExtract {
  import opened Wrappers
  import opened PyStr

  /** The language tag the pattern may skip after an opening fence. */
  const Tag: string := "python"

  /** Three backticks start at index `i`. */
  predicate FenceAt(s: string, i: int)
  {
    0 <= i && i + 3 <= |s| && s[i] == '`' && s[i + 1] == '`' && s[i + 2] == '`'
  }

  /** The six characters at `i` are exactly `python`. */
  predicate HasTag(s: string, i: int)
  {
    0 <= i && i + |Tag| <= |s| && s[i..i + |Tag|] == Tag
  }

  /** No fence starts anywhere in `s`. */
  ghost predicate NoFence(s: string)
  {
    forall k :: !FenceAt(s, k)
  }

  /** Where the captured body begins for an opening fence at `p`. */
  function BodyStart(p: int, tagged: bool): (start: int)
  {
    p + 3 + (if tagged then |Tag| else 0)
  }

  /**
   * The pattern matches `s` with the opening fence at `p`, the optional
   * `python` consumed iff `tagged`, and the closing fence at `j`.
   */
  ghost predicate MatchAt(s: string, p: int, tagged: bool, j: int)
  {
    && FenceAt(s, p)
    && (tagged ==> HasTag(s, p + 3))
    && BodyStart(p, tagged) <= j
    && FenceAt(s, j)
  }

  /** No match of the pattern starts at or after `from`. */
  ghost predicate NoMatchFrom(s: string, from: int)
  {
    forall p, t, j :: from <= p ==> !MatchAt(s, p, t, j)
  }

  /**
   * The match a backtracking engine reports when it searches from `from`:
   * the leftmost start, the greedy `(?:python)?` preferred, and the lazy
   * `(.*?)` as short as possible.
   */
  ghost predicate IsFirstMatchFrom(s: string, from: int, p: int, t: bool, j: int)
  {
    && from <= p
    && MatchAt(s, p, t, j)
    && (forall p', t', j' :: from <= p' < p ==> !MatchAt(s, p', t', j'))
    && (!t ==> forall j' :: !MatchAt(s, p, true, j'))
    && (forall j' :: j' < j ==> !MatchAt(s, p, t, j'))
  }

  /** Nearest fence starting at or after `from`. */
  function FindFence(s: string, from: nat): (r: Option<nat>)
    ensures r.Some? ==> from <= r.value && FenceAt(s, r.value)
    ensures r.Some? ==> forall k :: from <= k < r.value ==> !FenceAt(s, k)
    ensures r.None? ==> forall k :: from <= k ==> !FenceAt(s, k)
    decreases |s| - from
  {
    if |s| < from + 3 then None
    else if FenceAt(s, from) then Some(from)
    else FindFence(s, from + 1)
  }

  /** A match as the engine records it. */
  datatype Block = Block(opener: nat, tagged: bool, closer: nat)
  {
    /** Index of the first character of the captured group. */
    function Start(): int { BodyStart(opener, tagged) }
  }

  /**
   * One step of the engine's scan from `from`: the first opening fence, the
   * tag if present, then the nearest closing fence after the body start.
   */
  function NextBlock(s: string, from: nat): (b: Option<Block>)
    ensures b.Some? ==> from <= b.value.opener
    ensures b.Some? ==> 0 <= b.value.Start() <= b.value.closer && b.value.closer + 3 <= |s|
    ensures b.Some? ==> forall k :: b.value.Start() <= k < b.value.closer ==> !FenceAt(s, k)
  {
    match FindFence(s, from)
    case None => None
    case Some(p) =>
      var tagged := HasTag(s, p + 3);
      match FindFence(s, BodyStart(p, tagged))
      case None => None
      case Some(j) => Some(Block(p, tagged, j))
  }

  /** An opening fence with no closing fence after its body start admits no match from there on. */
  lemma UnclosedOpenerEndsSearch(s: string, from: nat, p: nat)
    requires FindFence(s, from) == Some(p)
    requires FindFence(s, BodyStart(p, HasTag(s, p + 3))).None?
    ensures NoMatchFrom(s, from)
  {
  }

  /** A closed opening fence is the leftmost match, with the tag taken when present. */
  lemma ClosedOpenerIsFirst(s: string, from: nat, p: nat, j: nat)
    requires FindFence(s, from) == Some(p)
    requires FindFence(s, BodyStart(p, HasTag(s, p + 3))) == Some(j)
    ensures IsFirstMatchFrom(s, from, p, HasTag(s, p + 3), j)
  {
  }

  /** The engine's scan agrees with the declarative description of the first match. */
  lemma NextBlockIsFirstMatch(s: string, from: nat)
    ensures NextBlock(s, from).Some? ==>
      var b := NextBlock(s, from).value;
      IsFirstMatchFrom(s, from, b.opener, b.tagged, b.closer)
    ensures NextBlock(s, from).None? <==> NoMatchFrom(s, from)
  {
    match FindFence(s, from)
    case None =>
    case Some(p) =>
      var tagged := HasTag(s, p + 3);
      match FindFence(s, BodyStart(p, tagged))
      case None =>
        UnclosedOpenerEndsSearch(s, from, p);
      case Some(j) =>
        ClosedOpenerIsFirst(s, from, p, j);
  }

  /** Two first matches from the same position coincide. */
  lemma FirstMatchUnique(s: string, from: int, p1: int, t1: bool, j1: int, p2: int, t2: bool, j2: int)
    requires IsFirstMatchFrom(s, from, p1, t1, j1)
    requires IsFirstMatchFrom(s, from, p2, t2, j2)
    ensures p1 == p2 && t1 == t2 && j1 == j2
  {
  }

  /**
   * `re.findall` from `from`: the captured group of every non-overlapping
   * match, left to right; each search resumes after the previous closing fence.
   */
  function FindAllFrom(s: string, from: nat): (blocks: seq<string>)
    ensures forall i :: 0 <= i < |blocks| ==> NoFence(blocks[i])
    decreases |s| - from
  {
    match NextBlock(s, from)
    case None => []
    case Some(b) =>
      var body := s[b.Start()..b.closer];
      assert NoFence(body) by {
        forall k ensures !FenceAt(body, k) {
          assert FenceAt(body, k) ==> FenceAt(s, b.Start() + k);
        }
      }
      [body] + FindAllFrom(s, b.closer + 3)
  }

  /**
   * `re.findall(pattern, text, re.DOTALL)` for the fence pattern: it returns
   * something exactly when the pattern matches somewhere in the text.
   */
  function FindAll(s: string): (blocks: seq<string>)
    ensures |blocks| > 0 <==> !NoMatchFrom(s, 0)
    ensures forall i :: 0 <= i < |blocks| ==> NoFence(blocks[i])
  {
    NextBlockIsFirstMatch(s, 0);
    FindAllFrom(s, 0)
  }

  /**
   * `extract_python_code`: the first captured block stripped, else the whole
   * text stripped. The result never starts or ends with whitespace, and a
   * reply the pattern does not match is taken whole.
   */
  function ExtractPythonCode(text: string): (code: string)
    ensures IsStripped(code)
    ensures NoMatchFrom(text, 0) ==> code == Strip(text)
  {
    var codeBlocks := FindAll(text);
    if |codeBlocks| > 0 then Strip(codeBlocks[0]) else Strip(text)
  }

  /**
   * The result is the stripped body of the first match, or the stripped
   * input when the pattern matches nowhere.
   */
  lemma ExtractReturnsFirstMatch(text: string)
    ensures NoMatchFrom(text, 0) ==> ExtractPythonCode(text) == Strip(text)
    ensures forall p, t, j :: IsFirstMatchFrom(text, 0, p, t, j) ==>
      ExtractPythonCode(text) == Strip(text[BodyStart(p, t)..j])
    ensures !NoMatchFrom(text, 0) ==> exists p, t, j :: IsFirstMatchFrom(text, 0, p, t, j)
  {
    NextBlockIsFirstMatch(text, 0);
    match NextBlock(text, 0)
    case None =>
    case Some(b) =>
      assert IsFirstMatchFrom(text, 0, b.opener, b.tagged, b.closer);
      forall p, t, j | IsFirstMatchFrom(text, 0, p, t, j)
        ensures ExtractPythonCode(text) == Strip(text[BodyStart(p, t)..j])
      {
        FirstMatchUnique(text, 0, p, t, j, b.opener, b.tagged, b.closer);
      }
  }

  /** `re.findall` finds something exactly when the scan from the start finds a block, and its first item is that block's body. */
  lemma FindAllHead(s: string)
    ensures |FindAll(s)| > 0 <==> NextBlock(s, 0).Some?
    ensures NextBlock(s, 0).Some? ==>
      var b := NextBlock(s, 0).value; FindAll(s)[0] == s[b.Start()..b.closer]
  {
  }

  /** A match inside a slice is a match in the whole text, shifted by the slice's start. */
  lemma MatchInSlice(s: string, lo: int, hi: int, p: int, t: bool, j: int)
    requires 0 <= lo <= hi <= |s|
    requires MatchAt(s[lo..hi], p, t, j)
    ensures MatchAt(s, lo + p, t, lo + j)
  {
    var a := s[lo..hi];
    assert a[p] == s[lo + p] && a[p + 1] == s[lo + p + 1] && a[p + 2] == s[lo + p + 2];
    assert a[j] == s[lo + j] && a[j + 1] == s[lo + j + 1] && a[j + 2] == s[lo + j + 2];
    if t {
      var q := p + 3;
      assert q + |Tag| <= |a|;
      var inSlice, inWhole := a[q..q + |Tag|], s[lo + q..lo + q + |Tag|];
      forall i | 0 <= i < |Tag|
        ensures inSlice[i] == inWhole[i]
      {
        assert a[q + i] == s[lo + q + i];
      }
      assert inSlice == inWhole;
    }
  }

  /** A fence-free text never matches the pattern. */
  lemma NoFenceNoMatch(s: string)
    requires NoFence(s)
    ensures NoMatchFrom(s, 0)
  {
  }

  /** The extracted code is a contiguous run of the reply with no surrounding whitespace. */
  lemma ExtractIsTrimmedSlice(text: string)
    ensures IsStripped(ExtractPythonCode(text))
    ensures IsSliceOf(ExtractPythonCode(text), text)
  {
    FindAllHead(text);
    match NextBlock(text, 0)
    case None =>
      StripOfSlice(text, 0, |text|);
      assert text[0..|text|] == text;
    case Some(b) =>
      StripOfSlice(text, b.Start(), b.closer);
  }

  /** A slice of a fence-free text is fence-free. */
  lemma SliceKeepsNoFence(s: string, lo: int, hi: int)
    requires 0 <= lo <= hi <= |s|
    requires NoFence(s)
    ensures NoFence(s[lo..hi])
  {
    forall k ensures !FenceAt(s[lo..hi], k) {
      assert FenceAt(s[lo..hi], k) ==> FenceAt(s, lo + k);
    }
  }

  /** Extracting from extracted code returns it unchanged. */
  lemma {:induction false} ExtractIdempotent(text: string)
    ensures ExtractPythonCode(ExtractPythonCode(text)) == ExtractPythonCode(text)
  {
    var code := ExtractPythonCode(text);
    FindAllHead(text);
    FindAllHead(code);
    NextBlockIsFirstMatch(text, 0);
    NextBlockIsFirstMatch(code, 0);
    var (lo, hi) := StripBounds(code);
    match NextBlock(text, 0)
    case None =>
      var (l, h) := StripBounds(text);
      assert code == text[l..h];
      forall p, t, j | MatchAt(code, p, t, j)
        ensures false
      {
        MatchInSlice(text, l, h, p, t, j);
      }
      assert Strip(code) == code by { StripFixesStripped(code); }
    case Some(b) =>
      var body := FindAll(text)[0];
      assert NoFence(body);
      var (l, h) := StripBounds(body);
      SliceKeepsNoFence(body, l, h);
      NoFenceNoMatch(code);
      StripFixesStripped(code);
  }

  /** Text appended after a fence does not move it: the nearest fence in `s` is also the nearest in `s + rest`. */
  lemma {:induction false} FindFenceInPrefix(s: string, rest: string, from: nat)
    requires FindFence(s, from).Some?
    ensures FindFence(s + rest, from) == FindFence(s, from)
    decreases |s| - from
  {
    var w := s + rest;
    assert w[from] == s[from] && w[from + 1] == s[from + 1] && w[from + 2] == s[from + 2];
    if !FenceAt(s, from) {
      FindFenceInPrefix(s, rest, from + 1);
    }
  }

  /** Once `s` holds a complete block, appending text changes neither the first block nor its tag choice. */
  lemma NextBlockInPrefix(s: string, rest: string)
    requires NextBlock(s, 0).Some?
    ensures NextBlock(s + rest, 0) == NextBlock(s, 0)
  {
    var w := s + rest;
    var b := NextBlock(s, 0).value;
    var p := b.opener;
    FindFenceInPrefix(s, rest, 0);
    assert HasTag(w, p + 3) == HasTag(s, p + 3) by {
      if p + 3 + |Tag| <= |s| {
        assert w[p + 3..p + 3 + |Tag|] == s[p + 3..p + 3 + |Tag|];
      } else {
        // The closing fence of `s` would sit inside the six tag letters of `w`.
        var j := b.closer;
        assert p + 3 <= j < p + 3 + |Tag|;
        assert w[j] == s[j] == '`';
        assert Tag[j - (p + 3)] != '`';
        if p + 3 + |Tag| <= |w| {
          assert w[p + 3..p + 3 + |Tag|][j - (p + 3)] == '`';
        }
      }
    }
    FindFenceInPrefix(s, rest, BodyStart(p, b.tagged));
  }

  /**
   * Only the first block counts: once the reply holds a complete block,
   * whatever follows it (later blocks included) never reaches the result.
   */
  lemma ExtractIgnoresLaterText(s: string, rest: string)
    requires !NoMatchFrom(s, 0)
    ensures ExtractPythonCode(s + rest) == ExtractPythonCode(s)
  {
    NextBlockIsFirstMatch(s, 0);
    NextBlockInPrefix(s, rest);
    FindAllHead(s);
    FindAllHead(s + rest);
    var b := NextBlock(s, 0).value;
    assert (s + rest)[b.Start()..b.closer] == s[b.Start()..b.closer];
  }

  /** `s` contains no backtick at all. */
  predicate BacktickFree(s: string)
  {
    forall i :: 0 <= i < |s| ==> s[i] != '`'
  }

  /**
   * A reply whose first fence follows backtick-free text `pre` and encloses
   * backtick-free text `x`: exactly a leading `python` is dropped from `x`;
   * any other tag (`py`, `js`, ...) stays in the code.
   */
  lemma ExtractFencedBody(pre: string, x: string, rest: string)
    requires BacktickFree(pre) && BacktickFree(x)
    ensures ExtractPythonCode(pre + "```" + x + "```" + rest) ==
      if HasTag(x, 0) then Strip(x[|Tag|..]) else Strip(x)
  {
    var s := pre + "```" + x + "```" + rest;
    var n := |pre|;
    var j := n + 3 + |x|;
    FencedOpener(pre, x, rest);
    FencedTag(pre, x, rest);
    FencedCloser(pre, x, rest);
    assert NextBlock(s, 0) == Some(Block(n, HasTag(x, 0), j));
    FindAllHead(s);
    if HasTag(x, 0) {
      assert s[BodyStart(n, true)..j] == x[|Tag|..];
    }
  }

  /** In such a reply the first fence is the one right after `pre`, and `x` follows it. */
  lemma FencedOpener(pre: string, x: string, rest: string)
    requires BacktickFree(pre)
    ensures var s := pre + "```" + x + "```" + rest;
      FindFence(s, 0) == Some(|pre|) && s[|pre| + 3..|pre| + 3 + |x|] == x
  {
    var s := pre + "```" + x + "```" + rest;
    var n := |pre|;
    forall k | 0 <= k < n
      ensures !FenceAt(s, k)
    {
      assert s[k] == pre[k];
    }
    assert FenceAt(s, n);
  }

  /** The engine takes the tag in such a reply exactly when `x` starts with it. */
  lemma FencedTag(pre: string, x: string, rest: string)
    requires BacktickFree(x)
    ensures var s := pre + "```" + x + "```" + rest;
      HasTag(s, |pre| + 3) == HasTag(x, 0)
  {
    var s := pre + "```" + x + "```" + rest;
    var n := |pre|;
    var j := n + 3 + |x|;
    assert s[n + 3..j] == x;
    if |Tag| <= |x| {
      assert s[n + 3..n + 3 + |Tag|] == x[..|Tag|];
    } else {
      // The closing fence would sit inside the six tag letters.
      assert s[j] == '`';
    }
  }

  /** The fence right after `x` closes the block, whether or not the tag was taken. */
  lemma FencedCloser(pre: string, x: string, rest: string)
    requires BacktickFree(x)
    ensures var s := pre + "```" + x + "```" + rest;
      FindFence(s, BodyStart(|pre|, HasTag(x, 0))) == Some(|pre| + 3 + |x|)
  {
    var s := pre + "```" + x + "```" + rest;
    var n := |pre|;
    var j := n + 3 + |x|;
    var start := BodyStart(n, HasTag(x, 0));
    assert s[j] == '`' && s[j + 1] == '`' && s[j + 2] == '`';
    forall k | start <= k < j
      ensures !FenceAt(s, k)
    {
      assert s[k] == x[k - n - 3];
    }
    assert FenceAt(s, j);
  }

  /** A reply without backticks is taken as code verbatim, only stripped. */
  lemma ExtractWithoutBackticks(text: string)
    requires BacktickFree(text)
    ensures ExtractPythonCode(text) == Strip(text)
  {
    assert NoFence(text);
    NoFenceNoMatch(text);
    ExtractReturnsFirstMatch(text);
  }
}

=== FILE: code_extract_examples.dfy ===
/** The extraction examples worked through on concrete replies. */
module CodeExtractExamples {
  import opened PyStr
  import opened CodeExtract

  /** Worked example: a reply with no fence at all is taken verbatim. */
  lemma ExtractExampleNoFence()
    ensures ExtractPythonCode("no backticks here") == "no backticks here"
  {
    var text := "no backticks here";
    assert BacktickFree(text);
    assert IsStripped(text);
    ExtractWithoutBackticks(text);
    StripFixesStripped(text);
  }

  /** The tagged example reply, split at its fences. */
  lemma TaggedReplyShape()
    ensures "text " + "```" + "python\nprint(1)\n" + "```" + " more" == "text ```python\nprint(1)\n``` more"
  {
  }

  /** The tagged example's body starts with the tag; what follows it. */
  lemma TaggedBodyShape()
    ensures HasTag("python\nprint(1)\n", 0)
    ensures "python\nprint(1)\n"[|Tag|..] == "\n" + "print(1)" + "\n"
  {
    var x := "python\nprint(1)\n";
    assert x[..|Tag|] == Tag;
    assert x[|Tag|..] == "\n" + "print(1)" + "\n";
  }

  /** Stripping a line of code wrapped in newlines gives back the line. */
  lemma StripNewlineWrapped(x: string)
    requires x != [] && IsStripped(x)
    ensures Strip("\n" + x + "\n") == x
  {
    var body := "\n" + x + "\n";
    assert body[1] == x[0] && body[|body| - 2] == x[|x| - 1];
    assert SkipSpaces(body, 1) == 1;
    assert SkipSpaces(body, 0) == 1;
    assert TrimBack(body, 1, |body| - 1) == |body| - 1;
    assert TrimBack(body, 1, |body|) == |body| - 1;
    assert body[1..|body| - 1] == x;
  }

  /** The example lines have no surrounding whitespace. */
  lemma ExampleLinesStripped()
    ensures IsStripped("print(1)") && IsStripped("x=1")
  {
    assert "print(1)"[0] == 'p' && "print(1)"[7] == ')';
    assert "x=1"[0] == 'x' && "x=1"[2] == '1';
  }

  /** Worked example: a `python`-tagged block after prose loses its tag and its blank lines. */
  lemma ExtractExampleTagged()
    ensures ExtractPythonCode("text ```python\nprint(1)\n``` more") == "print(1)"
  {
    var x := "python\nprint(1)\n";
    assert BacktickFree("text ") && BacktickFree(x);
    ExtractFencedBody("text ", x, " more");
    TaggedReplyShape();
    TaggedBodyShape();
    ExampleLinesStripped();
    StripNewlineWrapped("print(1)");
  }

  /** The two-block example reply, split at its first two fences. */
  lemma TwoBlockReplyShape()
    ensures "" + "```" + "\nx=1\n" + "```" + " ```\ny=2\n```" == "```\nx=1\n``` ```\ny=2\n```"
  {
  }

  /** The first block's body is untagged: a newline, the line, a newline. */
  lemma TwoBlockBodyShape()
    ensures !HasTag("\nx=1\n", 0)
    ensures "\nx=1\n" == "\n" + "x=1" + "\n"
  {
  }

  /** Worked example: of two untagged blocks only the first is returned. */
  lemma ExtractExampleTwoBlocks()
    ensures ExtractPythonCode("```\nx=1\n``` ```\ny=2\n```") == "x=1"
  {
    var x := "\nx=1\n";
    assert BacktickFree("") && BacktickFree(x);
    ExtractFencedBody("", x, " ```\ny=2\n```");
    TwoBlockReplyShape();
    TwoBlockBodyShape();
    ExampleLinesStripped();
    StripNewlineWrapped("x=1");
  }
}

=== FILE: exceptions.dfy ===
/**
 * Python exception classes as far as the executor's `except` clause and the
 * request handlers' `except` clauses can tell them apart. A class is its name,
 * its single base and where it was defined; the built-in hierarchy,
 * `openai.OpenAIError` and classes defined by the executed code are all
 * values of the same datatype.
 */
module Exceptions {

  /** Where a class was defined. */
  datatype Origin = Builtins | OpenAILibrary | Snippet

  /** `BaseException`, or a class declared as `class name(base)`. */
  datatype ExcClass =
    | BaseException
    | Subclass(name: string, base: ExcClass, origin: Origin)

  /** A raised exception: its class and `str(ex)`. */
  datatype PyException = PyException(cls: ExcClass, text: string)

  /** How a Python call ended: it returned a value or let an exception escape. */
  datatype Exit<T> = Return(value: T) | Raise(ex: PyException)

  function Builtin(name: string, base: ExcClass): (c: ExcClass)
  {
    Subclass(name, base, Builtins)
  }

  // The part of Python's built-in hierarchy the model refers to.
  const Exception := Builtin("Exception", BaseException)
  const KeyboardInterrupt := Builtin("KeyboardInterrupt", BaseException)
  const ArithmeticError := Builtin("ArithmeticError", Exception)
  const OverflowError := Builtin("OverflowError", ArithmeticError)
  const ZeroDivisionError := Builtin("ZeroDivisionError", ArithmeticError)
  const AssertionError := Builtin("AssertionError", Exception)
  const AttributeError := Builtin("AttributeError", Exception)
  const ImportError := Builtin("ImportError", Exception)
  const ModuleNotFoundError := Builtin("ModuleNotFoundError", ImportError)
  const LookupError := Builtin("LookupError", Exception)
  const IndexError := Builtin("IndexError", LookupError)
  const KeyError := Builtin("KeyError", LookupError)
  const NameError := Builtin("NameError", Exception)
  const UnboundLocalError := Builtin("UnboundLocalError", NameError)
  const OSError := Builtin("OSError", Exception)
  const FileNotFoundError := Builtin("FileNotFoundError", OSError)
  const RuntimeError := Builtin("RuntimeError", Exception)
  const RecursionError := Builtin("RecursionError", RuntimeError)
  const NotImplementedError := Builtin("NotImplementedError", RuntimeError)
  const SyntaxError := Builtin("SyntaxError", Exception)
  const IndentationError := Builtin("IndentationError", SyntaxError)
  const TabError := Builtin("TabError", IndentationError)
  const TypeError := Builtin("TypeError", Exception)
  const ValueError := Builtin("ValueError", Exception)
  const UnicodeError := Builtin("UnicodeError", ValueError)
  const UnicodeDecodeError := Builtin("UnicodeDecodeError", UnicodeError)

  /** `openai.OpenAIError`, the root of the client library's errors. */
  const OpenAIError := Subclass("OpenAIError", Exception, OpenAILibrary)

  /** `c.__mro__`: the class, then its base, its base's base, and so on. */
  function Mro(c: ExcClass): (mro: seq<ExcClass>)
    ensures |mro| > 0 && mro[0] == c && mro[|mro| - 1] == BaseException
  {
    match c
    case BaseException => [c]
    case Subclass(_, base, _) => [c] + Mro(base)
  }

  /** `issubclass(c, d)`: `d` is `c` or lies on its chain of bases, that is, in `c.__mro__`. */
  predicate IsSubclass(c: ExcClass, d: ExcClass)
    ensures IsSubclass(c, d) <==> d in Mro(c)
  {
    c == d || (c.Subclass? && IsSubclass(c.base, d))
  }

  /** Subclassing is transitive. */
  lemma {:induction false} IsSubclassTransitive(a: ExcClass, b: ExcClass, c: ExcClass)
    requires IsSubclass(a, b) && IsSubclass(b, c)
    ensures IsSubclass(a, c)
  {
    if a != b {
      IsSubclassTransitive(a.base, b, c);
    }
  }

  /** The classes named in `execute_user_code`'s `except` tuple. */
  const ExecutorCatches: set<ExcClass> := {
    SyntaxError, NameError, TypeError, ValueError, KeyError,
    AttributeError, IndexError, ZeroDivisionError, RuntimeError, ImportError
  }

  /** `except (A, B, ...)` matches `c`: some listed class is `c` or one of its bases. */
  predicate CaughtBy(listed: set<ExcClass>, c: ExcClass)
  {
    exists k :: k in listed && IsSubclass(c, k)
  }

  /**
   * The executor's `except` clause handles an exception of class `c`: some
   * class of `c.__mro__` is listed in the tuple.
   */
  predicate Caught(c: ExcClass)
    ensures Caught(c) <==> exists k :: k in Mro(c) && k in ExecutorCatches
  {
    CaughtBy(ExecutorCatches, c)
  }

  /** Handling is closed under subclassing: a subclass of a handled class is handled. */
  lemma CaughtClosedUnderSubclass(c: ExcClass, d: ExcClass)
    requires IsSubclass(c, d) && Caught(d)
    ensures Caught(c)
  {
    var k :| k in ExecutorCatches && IsSubclass(d, k);
    IsSubclassTransitive(c, d, k);
  }

  /** The same test done the way the interpreter walks the class's bases one by one. */
  predicate ListedAlongBases(listed: set<ExcClass>, c: ExcClass)
  {
    c in listed || (c.Subclass? && ListedAlongBases(listed, c.base))
  }

  /** Walking the bases and asking `issubclass` against each listed class agree. */
  lemma {:induction false} CaughtByIffAlongBases(listed: set<ExcClass>, c: ExcClass)
    ensures CaughtBy(listed, c) <==> ListedAlongBases(listed, c)
  {
    if c.Subclass? {
      CaughtByIffAlongBases(listed, c.base);
      if CaughtBy(listed, c) && c !in listed {
        var k :| k in listed && IsSubclass(c, k);
        assert IsSubclass(c.base, k);
      }
      if CaughtBy(listed, c.base) {
        var k :| k in listed && IsSubclass(c.base, k);
        assert IsSubclass(c, k);
      }
    } else if CaughtBy(listed, c) {
      var k :| k in listed && IsSubclass(c, k);
      assert c == k;
    }
  }

  /** Subclasses of listed classes are handled, whatever their depth. */
  lemma CaughtSubclassExamples()
    ensures Caught(ModuleNotFoundError) && Caught(RecursionError) && Caught(IndentationError)
    ensures Caught(TabError) && Caught(UnboundLocalError) && Caught(UnicodeDecodeError)
    ensures Caught(NotImplementedError)
  {
    assert IsSubclass(ModuleNotFoundError, ImportError);
    assert IsSubclass(RecursionError, RuntimeError);
    assert IsSubclass(IndentationError, SyntaxError);
    assert IsSubclass(TabError, SyntaxError);
    assert IsSubclass(UnboundLocalError, NameError);
    assert IsSubclass(UnicodeDecodeError, ValueError);
    assert IsSubclass(NotImplementedError, RuntimeError);
  }

  /**
   * A class the executed code defines on a handled base, such as
   * `class BadInput(ValueError)`, is handled as well.
   */
  lemma SnippetSubclassCaught(name: string, base: ExcClass)
    requires Caught(base)
    ensures Caught(Subclass(name, base, Snippet))
  {
    CaughtClosedUnderSubclass(Subclass(name, base, Snippet), base);
  }

  /** An unlisted class whose base is not handled is not handled either. */
  lemma UncaughtStep(c: ExcClass)
    requires c.Subclass? && c !in ExecutorCatches && !Caught(c.base)
    ensures !Caught(c)
  {
    CaughtByIffAlongBases(ExecutorCatches, c);
    CaughtByIffAlongBases(ExecutorCatches, c.base);
  }

  /** Neither `BaseException` nor `Exception` is handled. */
  lemma RootsUncaught()
    ensures !Caught(BaseException) && !Caught(Exception)
  {
    CaughtByIffAlongBases(ExecutorCatches, BaseException);
    UncaughtStep(Exception);
  }

  /** Arithmetic overflow and failed assertions propagate out of the executor. */
  lemma OverflowAndAssertionUncaught()
    ensures !Caught(OverflowError) && !Caught(AssertionError)
  {
    RootsUncaught();
    UncaughtStep(ArithmeticError);
    UncaughtStep(OverflowError);
    UncaughtStep(AssertionError);
  }

  /** Operating-system errors and keyboard interrupts propagate out of the executor. */
  lemma OSErrorAndInterruptUncaught()
    ensures !Caught(OSError) && !Caught(KeyboardInterrupt)
  {
    RootsUncaught();
    UncaughtStep(OSError);
    UncaughtStep(KeyboardInterrupt);
  }

  /**
   * A `FileNotFoundError` (from a save to a missing directory) propagates out
   * of the executor and is no `OpenAIError` either.
   */
  lemma FileNotFoundErrorUncaught()
    ensures !Caught(FileNotFoundError) && !IsSubclass(FileNotFoundError, OpenAIError)
  {
    OSErrorAndInterruptUncaught();
    UncaughtStep(FileNotFoundError);
  }

  /** An `OpenAIError` raised by the executed code propagates out of the executor. */
  lemma OpenAIErrorUncaught()
    ensures !Caught(OpenAIError)
  {
    RootsUncaught();
    UncaughtStep(OpenAIError);
  }

  /** Single inheritance: two ancestors of one class are themselves related. */
  lemma {:induction false} AncestorsAreOrdered(c: ExcClass, a: ExcClass, b: ExcClass)
    requires IsSubclass(c, a) && IsSubclass(c, b)
    ensures IsSubclass(a, b) || IsSubclass(b, a)
  {
    if c != a && c != b {
      AncestorsAreOrdered(c.base, a, b);
    }
  }

  /** No class is both a `ValueError` and an `OpenAIError`. */
  lemma ValueErrorsAreNotOpenAIErrors(c: ExcClass)
    requires IsSubclass(c, ValueError)
    ensures !IsSubclass(c, OpenAIError)
  {
    assert !IsSubclass(ValueError, OpenAIError) && !IsSubclass(OpenAIError, ValueError);
    if IsSubclass(c, OpenAIError) {
      AncestorsAreOrdered(c, ValueError, OpenAIError);
    }
  }
}

=== FILE: handlers.dfy ===
/**
 * The POST paths of the `index` view in three versions of the application:
 * step 02 (extract and display the code), the inline step 03 (extract and
 * execute in the view itself) and the refactored step 03 (the same through
 * `extract_python_code` and `execute_user_code`). The chat call is an
 * abstract outcome; routing, templates and data loading are left out.
 */
module Handlers {
  import opened Wrappers
  import opened Exceptions
  import opened PyStr
  import opened CodeExtract
  import opened CodeExec

  /**
   * How the request arrived. The prompt of a POST only shapes the chat
   * request, whose outcome is the separate `Chat` value.
   */
  datatype Request = Get | Post

  /** How `client.chat.completions.create(...)` ended: the reply's content or a raised exception. */
  datatype Chat = Reply(content: string) | ChatRaises(ex: PyException)

  /** The step-02 template variables. */
  datatype Page02 = Page02(gptResponse: string, codeToExecute: string)

  /** The step-03 template variables. */
  datatype Page03 = Page03(gptResponse: string, codeToExecute: string, executionResult: string, showGraphic: bool)

  /** Prefix of the message shown when the chat service fails. */
  const ApiErrorPrefix := "Error calling OpenAI API: "

  /** The `ValueError` text `get_openai_client` raises when no API key is configured. */
  const MissingKeyMessage := "Please set OPENAI_API_KEY in a .env file (or as an environment variable)."

  /** The inline step-03 view saves to this fixed relative path. */
  const InlineGraphicPath := "./static/graphic.png"

  /** `str(GRAPHIC_PATH)` for a project rooted at `root`. */
  function GraphicPath(root: string): (path: string)
    ensures path != ""
  {
    root + "/static/graphic.png"
  }

  /** The `str(ex)` the inline view gets when `plt` has no `get_fignums`. */
  const MissingGetFignums :=
    PyException(AttributeError, "module 'matplotlib.pyplot' has no attribute 'get_fignums'")

  const EmptyPage03 := Page03("", "", "", false)

  /** `except OpenAIError as e: gpt_response = f"Error calling OpenAI API: {e}"`; anything else propagates. */
  function ExceptOpenAIError<P>(e: PyException, page: P, withResponse: string -> P): (x: Exit<P>)
    ensures x.Raise? <==> !IsSubclass(e.cls, OpenAIError)
    ensures x.Raise? ==> x.ex == e
    ensures x.Return? ==> x.value == withResponse(ApiErrorPrefix + e.text)
  {
    if IsSubclass(e.cls, OpenAIError) then Return(withResponse(ApiErrorPrefix + e.text)) else Raise(e)
  }

  // ---------------------------------------------------------------- step 02

  /** The step-02 view: show the reply and the code extracted from it. */
  function Step02(req: Request, chat: Chat): (x: Exit<Page02>)
    ensures req.Get? ==> x == Return(Page02("", ""))
    ensures req.Post? && chat.Reply? ==>
      x == Return(Page02(chat.content, ExtractPythonCode(chat.content)))
    ensures req.Post? && chat.ChatRaises? && IsSubclass(chat.ex.cls, OpenAIError) ==>
      x == Return(Page02(ApiErrorPrefix + chat.ex.text, ""))
    ensures req.Post? && chat.ChatRaises? && !IsSubclass(chat.ex.cls, OpenAIError) ==>
      x == Raise(chat.ex)
  {
    match req
    case Get => Return(Page02("", ""))
    case Post =>
      match chat
      case Reply(content) => Return(Page02(content, ExtractPythonCode(content)))
      case ChatRaises(e) => ExceptOpenAIError(e, Page02("", ""), (r: string) => Page02(r, ""))
  }

  // ---------------------------------------------------------- inline step 03

  /**
   * The exception the inline `try` block raises, if any: from `exec`, else
   * from the unguarded `plt.get_fignums()`, else `savefig`, else `close`.
   */
  function InlineFault(run: Run, plot: Plotting): (fault: Option<PyException>)
  {
    if run.outcome.Raised? then Some(run.outcome.ex)
    else if !plot.hasGetFignums then Some(MissingGetFignums)
    else if run.figures > 0 && plot.savefig(InlineGraphicPath).Raises? then Some(plot.savefig(InlineGraphicPath).ex)
    else if run.figures > 0 && plot.close.Raises? then Some(plot.close.ex)
    else None
  }

  /** The inline view saved the graphic: no path guard, only open figures and a clean save. */
  predicate InlineSaved(run: Run, plot: Plotting)
  {
    run.outcome.Completed? && plot.hasGetFignums && run.figures > 0
    && plot.savefig(InlineGraphicPath).Returns? && plot.close.Returns?
  }

  /**
   * The inline execution block of the step-03 view: redirect `sys.stdout`,
   * `exec` in the namespace `{data, pd, plt}`, save and close the current
   * figure when `plt.get_fignums()` is non-empty, and produce
   * `(execution_result, show_graphic)`. The captured output is read with
   * `getvalue()` in the `else` clause, which runs only when nothing was
   * raised and whose exceptions the `except` tuple does not handle.
   */
  function InlineExecBlock(code: string, data: Value, plot: Plotting, interp: Interpreter, before: Process): (c: Call<(string, bool)>)
    // sys.stdout is restored in the `finally` clause, whatever happened.
    ensures c.after.stdout == before.stdout
    ensures var run := interp(code, DefaultGlobals(data, Pyplot), before.figures);
      var fault := InlineFault(run, plot);
      var escapes := fault.Some? && !Caught(fault.value.cls);
      && (c.exit.Raise? <==> escapes || (fault.None? && run.closedBuffer))
      && (c.exit.Raise? ==> c.exit.ex == if escapes then fault.value else ClosedFileError)
    // A handled fault shows only its message: output printed before it is dropped.
    // Otherwise the result is exactly the captured output.
    ensures var run := interp(code, DefaultGlobals(data, Pyplot), before.figures);
      var fault := InlineFault(run, plot);
      c.exit.Return? ==>
        && c.exit.value.0 == (if fault.Some? then ErrorPrefix + fault.value.text else run.printed)
        && (c.exit.value.1 <==> InlineSaved(run, plot))
    ensures var run := interp(code, DefaultGlobals(data, Pyplot), before.figures);
      c.after.figures == if InlineSaved(run, plot) then run.figures - 1 else run.figures
    // The graphic goes to the fixed relative path once `savefig` returned.
    ensures var run := interp(code, DefaultGlobals(data, Pyplot), before.figures);
      c.after.saved == before.saved + run.written
        + (if run.outcome.Completed? && plot.hasGetFignums && run.figures > 0 && plot.savefig(InlineGraphicPath).Returns?
           then {InlineGraphicPath} else {})
  {
    var run := interp(code, DefaultGlobals(data, Pyplot), before.figures);
    var st := AfterExec(run, before);
    var t :=
      match run.outcome
      case Raised(e) => TryEnd(Some(e), false, st)
      case Completed =>
        if !plot.hasGetFignums then TryEnd(Some(MissingGetFignums), false, st)
        else if st.figures > 0 then SaveAndClose(plot, InlineGraphicPath, st)
        else TryEnd(None, false, st);
    var after := t.process.(stdout := before.stdout);
    match t.raised
    case None =>
      if run.closedBuffer then Call(Raise(ClosedFileError), after)
      else Call(Return((run.printed, t.showGraphic)), after)
    case Some(e) =>
      if Caught(e.cls) then Call(Return((ErrorPrefix + e.text, t.showGraphic)), after)
      else Call(Raise(e), after)
  }

  /** The inline step-03 view. */
  function InlineStep03(req: Request, chat: Chat, data: Value, plot: Plotting, interp: Interpreter, before: Process): (c: Call<Page03>)
    ensures c.after.stdout == before.stdout
    ensures req.Get? ==> c.exit == Return(EmptyPage03)
    // A failed chat call leaves code, result and graphic at their initial values.
    ensures req.Post? && chat.ChatRaises? && IsSubclass(chat.ex.cls, OpenAIError) ==>
      c.exit == Return(Page03(ApiErrorPrefix + chat.ex.text, "", "", false))
    ensures req.Post? && chat.ChatRaises? && !IsSubclass(chat.ex.cls, OpenAIError) ==>
      c.exit == Raise(chat.ex)
    ensures req.Post? && chat.Reply? ==>
      var code := ExtractPythonCode(chat.content);
      var run := interp(code, DefaultGlobals(data, Pyplot), before.figures);
      var fault := InlineFault(run, plot);
      (fault.Some? && Caught(fault.value.cls)) || (fault.None? && !run.closedBuffer) ==>
        c.exit == Return(Page03(
          chat.content, code,
          if fault.Some? then ErrorPrefix + fault.value.text else run.printed,
          InlineSaved(run, plot)))
    // Reading a closed buffer raises a `ValueError`, which the outer
    // `except OpenAIError` lets through.
    ensures req.Post? && chat.Reply? ==>
      var code := ExtractPythonCode(chat.content);
      var run := interp(code, DefaultGlobals(data, Pyplot), before.figures);
      InlineFault(run, plot).None? && run.closedBuffer ==> c.exit == Raise(ClosedFileError)
    // An unhandled fault reaches the outer `except OpenAIError`, which keeps
    // the extracted code but shows no result and no graphic.
    ensures req.Post? && chat.Reply? ==>
      var code := ExtractPythonCode(chat.content);
      var run := interp(code, DefaultGlobals(data, Pyplot), before.figures);
      var fault := InlineFault(run, plot);
      (fault.Some? && !Caught(fault.value.cls)) ==>
        c.exit == (if IsSubclass(fault.value.cls, OpenAIError)
                   then Return(Page03(ApiErrorPrefix + fault.value.text, code, "", false))
                   else Raise(fault.value))
  {
    match req
    case Get => Call(Return(EmptyPage03), before)
    case Post =>
      match chat
      case ChatRaises(e) =>
        Call(ExceptOpenAIError(e, EmptyPage03, (r: string) => EmptyPage03.(gptResponse := r)), before)
      case Reply(content) =>
        var code := ExtractPythonCode(content);
        var block := InlineExecBlock(code, data, plot, interp, before);
        match block.exit
        case Return((result, shown)) => Call(Return(Page03(content, code, result, shown)), block.after)
        case Raise(e) =>
          var page := Page03(content, code, "", false);
          ValueErrorsAreNotOpenAIErrors(ClosedFileError.cls);
          Call(ExceptOpenAIError(e, page, (r: string) => page.(gptResponse := r)), block.after)
  }

  // ------------------------------------------------------ refactored step 03

  /**
   * The `except ValueError` / `except OpenAIError` pair of the refactored
   * view, applied to the page as it stood when the exception was raised.
   */
  function ExceptClientErrors(e: PyException, page: Page03): (x: Exit<Page03>)
    ensures IsSubclass(e.cls, ValueError) ==> x == Return(page.(gptResponse := e.text))
    // No class is both, so the order of the two clauses never matters.
    ensures IsSubclass(e.cls, OpenAIError) ==> x == Return(page.(gptResponse := ApiErrorPrefix + e.text))
    ensures x.Raise? <==> !IsSubclass(e.cls, ValueError) && !IsSubclass(e.cls, OpenAIError)
    ensures x.Raise? ==> x.ex == e
  {
    if IsSubclass(e.cls, ValueError) then
      ValueErrorsAreNotOpenAIErrors(e.cls);
      Return(page.(gptResponse := e.text))
    else ExceptOpenAIError(e, page, (r: string) => page.(gptResponse := r))
  }

  /**
   * The refactored step-03 view. `keyConfigured` says whether
   * `get_openai_client` finds an API key; without one it raises `ValueError`.
   */
  function Step03(
    req: Request, keyConfigured: bool, chat: Chat, data: Value, plot: Plotting,
    root: string, interp: Interpreter, before: Process): (c: Call<Page03>)
    ensures c.after.stdout == before.stdout
    ensures req.Get? ==> c.exit == Return(EmptyPage03)
    ensures req.Post? && !keyConfigured ==> c.exit == Return(Page03(MissingKeyMessage, "", "", false))
    ensures req.Post? && keyConfigured && chat.ChatRaises? && IsSubclass(chat.ex.cls, ValueError) ==>
      c.exit == Return(Page03(chat.ex.text, "", "", false))
    ensures req.Post? && keyConfigured && chat.ChatRaises? && IsSubclass(chat.ex.cls, OpenAIError) ==>
      c.exit == Return(Page03(ApiErrorPrefix + chat.ex.text, "", "", false))
    ensures req.Post? && keyConfigured && chat.ChatRaises?
            && !IsSubclass(chat.ex.cls, ValueError) && !IsSubclass(chat.ex.cls, OpenAIError) ==>
      c.exit == Raise(chat.ex)
    // The save path is never empty, so the graphic depends only on open
    // figures and a clean save; the result is the error when there is one.
    ensures req.Post? && keyConfigured && chat.Reply? ==>
      var code := ExtractPythonCode(chat.content);
      var run := interp(code, DefaultGlobals(data, Pyplot), before.figures);
      var fault := TryFault(run, plot, Some(GraphicPath(root)));
      (fault.None? || Caught(fault.value.cls)) && !run.closedBuffer ==>
        c.exit == Return(Page03(
          chat.content, code,
          if fault.Some? then ErrorPrefix + fault.value.text else run.printed,
          run.outcome.Completed? && plot.hasGetFignums && run.figures > 0
          && plot.savefig(GraphicPath(root)).Returns? && plot.close.Returns?))
    // `getvalue()` on a closed buffer raises a `ValueError` after the
    // `finally`, handled fault or not; `except ValueError` shows its text
    // and drops the result and the graphic flag.
    ensures req.Post? && keyConfigured && chat.Reply? ==>
      var code := ExtractPythonCode(chat.content);
      var run := interp(code, DefaultGlobals(data, Pyplot), before.figures);
      var fault := TryFault(run, plot, Some(GraphicPath(root)));
      (fault.None? || Caught(fault.value.cls)) && run.closedBuffer ==>
        c.exit == Return(Page03(ClosedFileError.text, code, "", false))
    ensures req.Post? && keyConfigured && chat.Reply? ==>
      var code := ExtractPythonCode(chat.content);
      var run := interp(code, DefaultGlobals(data, Pyplot), before.figures);
      var fault := TryFault(run, plot, Some(GraphicPath(root)));
      (fault.Some? && !Caught(fault.value.cls)) ==>
        c.exit == (if IsSubclass(fault.value.cls, OpenAIError)
                   then Return(Page03(ApiErrorPrefix + fault.value.text, code, "", false))
                   else Raise(fault.value))
  {
    match req
    case Get => Call(Return(EmptyPage03), before)
    case Post =>
      if !keyConfigured then
        Call(ExceptClientErrors(PyException(ValueError, MissingKeyMessage), EmptyPage03), before)
      else
        match chat
        case ChatRaises(e) => Call(ExceptClientErrors(e, EmptyPage03), before)
        case Reply(content) =>
          var code := ExtractPythonCode(content);
          var result := ExecuteUserCode(code, data, Pyplot, plot, Some(GraphicPath(root)), None, interp, before);
          match result.exit
          case Return(r) =>
            var executionResult := if r.error != "" then r.error else r.stdout;
            Call(Return(Page03(content, code, executionResult, r.showGraphic)), result.after)
          case Raise(e) => Call(ExceptClientErrors(e, Page03(content, code, "", false)), result.after)
  }

  // ------------------------------------------------------------ refinement

  /** Run in the step-03 namespace, the code leaves the capture buffer open. */
  predicate KeepsBufferOpen(code: string, data: Value, interp: Interpreter, before: Process)
  {
    !interp(code, DefaultGlobals(data, Pyplot), before.figures).closedBuffer
  }

  /**
   * The refactored view shows the same page as the inline one: same reply,
   * same code, same `execution_result` (the error message is never empty,
   * so `error or stdout` picks the error exactly when a fault was handled),
   * same graphic flag, same figures and `sys.stdout` afterwards. This holds
   * for every reply and every run of the code, provided `plt` has
   * `get_fignums`, an API key is configured, the chat call does not raise a
   * `ValueError` (which only the refactored view catches), the code leaves
   * the capture buffer open, and saving to the relative and to the absolute
   * graphic path ends the same way. `ClosedBufferDiverges` and
   * `SavePathDiverges` show what happens without the last two.
   */
  lemma Step03RefinesInline(
    req: Request, chat: Chat, data: Value, plot: Plotting,
    root: string, interp: Interpreter, before: Process)
    requires plot.hasGetFignums
    requires !(chat.ChatRaises? && IsSubclass(chat.ex.cls, ValueError))
    requires chat.Reply? ==> KeepsBufferOpen(ExtractPythonCode(chat.content), data, interp, before)
    requires plot.savefig(InlineGraphicPath) == plot.savefig(GraphicPath(root))
    ensures Step03(req, true, chat, data, plot, root, interp, before).exit
      == InlineStep03(req, chat, data, plot, interp, before).exit
    ensures Step03(req, true, chat, data, plot, root, interp, before).after.figures
      == InlineStep03(req, chat, data, plot, interp, before).after.figures
  {
    if req.Post? && chat.Reply? {
      ReplyPagesAgree(req, chat.content, data, plot, root, interp, before);
    }
  }

  /** The reply case of `Step03RefinesInline`: both views run the same code in the same namespace. */
  lemma ReplyPagesAgree(
    req: Request, content: string, data: Value, plot: Plotting,
    root: string, interp: Interpreter, before: Process)
    requires req.Post? && plot.hasGetFignums
    requires KeepsBufferOpen(ExtractPythonCode(content), data, interp, before)
    requires plot.savefig(InlineGraphicPath) == plot.savefig(GraphicPath(root))
    ensures var refactored := Step03(req, true, Reply(content), data, plot, root, interp, before);
      var inline := InlineStep03(req, Reply(content), data, plot, interp, before);
      refactored.exit == inline.exit && refactored.after.figures == inline.after.figures
  {
    ExecutorsAgree(ExtractPythonCode(content), data, plot, root, interp, before);
  }

  /**
   * The executor called with `str(GRAPHIC_PATH)` and the inline block end
   * alike: the same exception, or `error or stdout` equal to the inline
   * result with the same graphic flag, and the same figures open.
   */
  lemma ExecutorsAgree(
    code: string, data: Value, plot: Plotting, root: string, interp: Interpreter, before: Process)
    requires plot.hasGetFignums
    requires KeepsBufferOpen(code, data, interp, before)
    requires plot.savefig(InlineGraphicPath) == plot.savefig(GraphicPath(root))
    ensures var refactored := ExecuteUserCode(code, data, Pyplot, plot, Some(GraphicPath(root)), None, interp, before);
      var inline := InlineExecBlock(code, data, plot, interp, before);
      && (refactored.exit.Raise? <==> inline.exit.Raise?)
      && (refactored.exit.Raise? ==> refactored.exit.ex == inline.exit.ex)
      && (refactored.exit.Return? ==>
            var r := refactored.exit.value;
            inline.exit.value == (if r.error != "" then r.error else r.stdout, r.showGraphic))
      && refactored.after.figures == inline.after.figures
  {
    var run := interp(code, DefaultGlobals(data, Pyplot), before.figures);
    assert ExecGlobals(data, Pyplot, None) == DefaultGlobals(data, Pyplot);
    assert TryFault(run, plot, Some(GraphicPath(root))) == InlineFault(run, plot);
  }

  /**
   * Code that closes the capture buffer and otherwise completes: the
   * refactored view's `getvalue()` raises after the `finally` and
   * `except ValueError` shows the message, while the inline view's raises in
   * the `else` clause and escapes the request.
   */
  lemma ClosedBufferDiverges(
    req: Request, content: string, data: Value, plot: Plotting,
    root: string, interp: Interpreter, before: Process)
    requires req.Post? && plot.hasGetFignums
    requires var run := interp(ExtractPythonCode(content), DefaultGlobals(data, Pyplot), before.figures);
      run.outcome.Completed? && run.figures == 0 && run.closedBuffer
    ensures Step03(req, true, Reply(content), data, plot, root, interp, before).exit
      == Return(Page03(ClosedFileError.text, ExtractPythonCode(content), "", false))
    ensures InlineStep03(req, Reply(content), data, plot, interp, before).exit == Raise(ClosedFileError)
  {
  }

  /**
   * The inline view saves to a path relative to the working directory, the
   * refactored one to an absolute path. When only the relative save fails
   * (the code changed directory, say), with a `FileNotFoundError`, the
   * inline request fails while the refactored view shows the graphic.
   */
  lemma SavePathDiverges(
    req: Request, content: string, data: Value, plot: Plotting, message: string,
    root: string, interp: Interpreter, before: Process)
    requires req.Post? && plot.hasGetFignums && plot.close.Returns?
    requires plot.savefig(InlineGraphicPath) == Raises(PyException(FileNotFoundError, message))
    requires plot.savefig(GraphicPath(root)).Returns?
    requires var run := interp(ExtractPythonCode(content), DefaultGlobals(data, Pyplot), before.figures);
      run.outcome.Completed? && run.figures > 0 && !run.closedBuffer
    ensures var run := interp(ExtractPythonCode(content), DefaultGlobals(data, Pyplot), before.figures);
      Step03(req, true, Reply(content), data, plot, root, interp, before).exit
        == Return(Page03(content, ExtractPythonCode(content), run.printed, true))
    ensures InlineStep03(req, Reply(content), data, plot, interp, before).exit
      == Raise(PyException(FileNotFoundError, message))
  {
    FileNotFoundErrorUncaught();
  }

  /** A `ValueError` from the chat call is reported by the refactored view but escapes the inline one. */
  lemma OnlyRefactorCatchesChatValueError(
    req: Request, e: PyException, data: Value, plot: Plotting,
    root: string, interp: Interpreter, before: Process)
    requires req.Post? && IsSubclass(e.cls, ValueError)
    ensures Step03(req, true, ChatRaises(e), data, plot, root, interp, before).exit
      == Return(Page03(e.text, "", "", false))
    ensures InlineStep03(req, ChatRaises(e), data, plot, interp, before).exit == Raise(e)
  {
    ValueErrorsAreNotOpenAIErrors(e.cls);
  }

  /**
   * Without `get_fignums` the inline view fails with an `AttributeError`
   * after the code completed and reports it, while the refactored view's
   * `getattr` guard skips saving and reports the captured output. Neither
   * view can meet this case as written: both bind `plt` to
   * `matplotlib.pyplot`, which always has `get_fignums`, so the condition
   * `Step03RefinesInline` places on the plotting handle always holds there.
   */
  lemma OnlyInlineNeedsGetFignums(
    req: Request, content: string, data: Value, plot: Plotting,
    root: string, interp: Interpreter, before: Process)
    requires req.Post? && !plot.hasGetFignums
    requires var run := interp(ExtractPythonCode(content), DefaultGlobals(data, Pyplot), before.figures);
      run.outcome.Completed? && !run.closedBuffer
    ensures var code := ExtractPythonCode(content);
      InlineStep03(req, Reply(content), data, plot, interp, before).exit
        == Return(Page03(content, code, ErrorPrefix + MissingGetFignums.text, false))
    ensures var code := ExtractPythonCode(content);
      var run := interp(code, DefaultGlobals(data, Pyplot), before.figures);
      Step03(req, true, Reply(content), data, plot, root, interp, before).exit
        == Return(Page03(content, code, run.printed, false))
  {
    assert AttributeError in ExecutorCatches;
  }

  // ------------------------------------------------------------- extraction

  /**
   * Step 02 shows the body of the first fence, with the `python` tag
   * dropped and surrounding whitespace stripped, whatever follows it.
   */
  lemma Step02ShowsFirstFence(pre: string, x: string, rest: string)
    requires BacktickFree(pre) && BacktickFree(x)
    ensures var reply := pre + "```" + x + "```" + rest;
      Step02(Post, Reply(reply))
        == Return(Page02(reply, if HasTag(x, 0) then Strip(x[|Tag|..]) else Strip(x)))
  {
    ExtractFencedBody(pre, x, rest);
  }

  /**
   * Once a reply contains a complete fence, text appended after it does not
   * change the code step 02 shows.
   */
  lemma Step02IgnoresLaterText(reply: string, rest: string)
    requires !NoMatchFrom(reply, 0)
    ensures Step02(Post, Reply(reply + rest)).value.codeToExecute
      == Step02(Post, Reply(reply)).value.codeToExecute
  {
    ExtractIgnoresLaterText(reply, rest);
  }

  /**
   * Every step-03 page built from a reply shows the code step 02 shows for
   * the same reply, in both the inline and the refactored view.
   */
  lemma Step03ShowsStep02Code(
    content: string, data: Value, plot: Plotting,
    root: string, interp: Interpreter, before: Process)
    ensures var shown := Step02(Post, Reply(content)).value.codeToExecute;
      var inline := InlineStep03(Post, Reply(content), data, plot, interp, before).exit;
      var refactored := Step03(Post, true, Reply(content), data, plot, root, interp, before).exit;
      && (inline.Return? ==> inline.value.codeToExecute == shown)
      && (refactored.Return? ==> refactored.value.codeToExecute == shown)
  {
  }
}

=== FILE: py_str.dfy ===
/**
 * The part of Python's `str` that the extractor relies on: `str.isspace` on a
 * single code point and `str.strip()` with no argument.
 */
module PyStr {

  /** The code points for which Python 3's `str.isspace` holds. */
  const Whitespace: set<char> := {
    '\t', '\n', '\U{0B}', '\U{0C}', '\r', '\U{1C}', '\U{1D}', '\U{1E}', '\U{1F}', ' ',
    '\U{85}', '\U{A0}', '\U{1680}',
    '\U{2000}', '\U{2001}', '\U{2002}', '\U{2003}', '\U{2004}', '\U{2005}',
    '\U{2006}', '\U{2007}', '\U{2008}', '\U{2009}', '\U{200A}',
    '\U{2028}', '\U{2029}', '\U{202F}', '\U{205F}', '\U{3000}'
  }

  /** `str.isspace` on one code point; `str.strip()` drops exactly these. */
  predicate IsSpace(c: char)
  {
    c in Whitespace
  }

  /** Neither end of `s` is whitespace: `s` is a fixed point of `str.strip()`. */
  predicate IsStripped(s: string)
  {
    s == [] || (!IsSpace(s[0]) && !IsSpace(s[|s| - 1]))
  }

  /** `a` occurs in `b` as a contiguous run of characters. */
  ghost predicate IsSliceOf(a: string, b: string)
  {
    exists lo, hi :: 0 <= lo <= hi <= |b| && a == b[lo..hi]
  }

  /** First index at or after `i` that holds a non-whitespace character (or `|s|`). */
  function SkipSpaces(s: string, i: nat): (j: nat)
    requires i <= |s|
    ensures i <= j <= |s|
    ensures forall k :: i <= k < j ==> IsSpace(s[k])
    ensures j == |s| || !IsSpace(s[j])
    decreases |s| - i
  {
    if i < |s| && IsSpace(s[i]) then SkipSpaces(s, i + 1) else i
  }

  /** Walks `j` back over whitespace, never below `lo`. */
  function TrimBack(s: string, lo: nat, j: nat): (hi: nat)
    requires lo <= j <= |s|
    ensures lo <= hi <= j
    ensures forall k :: hi <= k < j ==> IsSpace(s[k])
    ensures hi == lo || !IsSpace(s[hi - 1])
    decreases j
  {
    if lo < j && IsSpace(s[j - 1]) then TrimBack(s, lo, j - 1) else j
  }

  /** The bounds `str.strip()` keeps: `[lo, hi)`. */
  function StripBounds(s: string): (b: (nat, nat))
    ensures b.0 <= b.1 <= |s|
  {
    var lo := SkipSpaces(s, 0);
    (lo, TrimBack(s, lo, |s|))
  }

  /**
   * `str.strip()`: the result is the run of `s` between a whitespace-only
   * prefix and a whitespace-only suffix, and it starts and ends with
   * non-whitespace.
   */
  function Strip(s: string): (r: string)
    ensures IsStripped(r)
    ensures var (lo, hi) := StripBounds(s);
      && r == s[lo..hi]
      && (forall k :: 0 <= k < lo ==> IsSpace(s[k]))
      && (forall k :: hi <= k < |s| ==> IsSpace(s[k]))
  {
    var (lo, hi) := StripBounds(s);
    s[lo..hi]
  }

  /** A string that already has no surrounding whitespace is left alone. */
  lemma StripFixesStripped(s: string)
    requires IsStripped(s)
    ensures Strip(s) == s
  {
  }

  /** `str.strip()` is idempotent. */
  lemma StripIdempotent(s: string)
    ensures Strip(Strip(s)) == Strip(s)
  {
    StripFixesStripped(Strip(s));
  }

  /** The strip of a slice of `b` is again a slice of `b`. */
  lemma StripOfSlice(b: string, lo: int, hi: int)
    requires 0 <= lo <= hi <= |b|
    ensures IsSliceOf(Strip(b[lo..hi]), b)
  {
    var a := b[lo..hi];
    var (l, h) := StripBounds(a);
    assert Strip(a) == b[lo + l..lo + h];
  }
}

=== FILE: wrappers.dfy ===
/** The optional-value datatype shared by the whole model. */
module Wrappers {

  /** A value that may be absent (Python's `None` for an optional argument). */
  datatype Option<+T> = None | Some(value: T)
}
